=== FILE: README.md ===
# GreenHub Lumberjack: the request-parameter pipeline

A Dafny model of the part of the GreenHub command-line client that turns
command-line input into REST requests:

- **Filters.** `makeFilters` splits each `key:value` clause at its colons
  and folds the clauses into one object. A later clause wins a key.
- **Search parameters.** `buildSearchParams` judges the first given of
  `date`, `last` and `range`, in that order. `date` must be a valid date.
  `last` must be an interval such as `12h` (whole-string match of
  `/[1-9]+[0-9]*(m|w|d|h)/g`). `range` is `begin..end` checked by
  `validateDateRange`. Any failure yields the empty object.
- **The guard.** `count` and `lumberjack` return before any request when
  that object is empty or the user is not logged in.
- **Requests.** `bundleParams` / `makeParams` add `cli` and `api_token`.
  `makeUrl` builds the URL.
- **Pagination.** `makeQuery` offers `Next page` / `Previous page` / `Exit`
  from the reply's `next_page_url` / `prev_page_url`. It moves the page by
  one and queries again.
- **The older top-level `count`.** Its `last` check is weaker, and it
  passes `range` through unchecked.

Modules:

- `Js`: the JavaScript semantics the code relies on. Objects are
  `map<string, Value>`. Also `split`, string concatenation of values, and
  `String(n)`.
- `Interval`: the interval regex and what `match` returns.
- `Utils`: lib/utils.js.
- `Cli`: the options and the request handed to the transport.
- `Hub`: lib/greenhub.js parameter building.
- `Pagination`: the `makeQuery` loop.
- `Legacy`: the top-level greenhub.js.

The moment date library is not modelled. `Utils.Moment` carries three
arbitrary relations: `valid`, `same` and `before`. Every result holds for
all of them. The credential store is an object read for `token` and
`server`. The server's replies and the user's answers are parameters of
`Pagination.Browse`.

Behaviour of lib/greenhub.js that is easy to misread:

- Pagination reads the reply's `prev_page_url` and `next_page_url` fields.
- For a duplicate filter key the last clause wins.
- A `__proto__:…` filter clause creates no filter: the assignment reaches
  the inherited `__proto__` setter, which ignores a string.
- An open range sends the missing endpoint as `''` rather than leaving it
  out.
- `page` and `per_page` are copied from the options with no defaults.
- Nothing in these files handles `with`, `everything`, `output`, `all` or
  a timeout.

## Model

| member | source | states |
|---|---|---|
| Js.Split | lib/greenhub.js:295 | `split` with a literal separator: the pieces joined with the separator give back the input, no piece contains the separator, and the first piece ends at the leftmost occurrence |
| Js.DecimalRoundTrip | greenhub.js:196 | the decimal text of a version number reads back as that number |
| Interval.MatchAt | lib/greenhub.js:316 | a match reported at a position is a string of the pattern's language: non-zero digit, digits, one of m/w/d/h |
| Interval.MatchAtComplete | lib/greenhub.js:316 | whenever a piece starting at a position is in the language, the regex matches there and ends exactly where that piece ends |
| Interval.FirstMatchIsLeftmost | lib/utils.js:14 | `match` never skips a match: the first reported match starts no later than any occurrence of the language |
| Interval.MatchFoundIff | greenhub.js:36 | `match` returns non-null exactly when some piece of the string is in the language |
| Interval.WholeMatchIff | lib/utils.js:13-16 | the first match equals the whole string exactly when the whole string is in the language |
| Utils.ValidateParam | lib/utils.js:13-16 | accepts exactly when the pattern matches and its first match is the whole parameter |
| Utils.IntervalParamIff | lib/greenhub.js:316-318 | with the interval pattern, `validateParam` accepts exactly the strings made of a non-zero digit, any digits, then m/w/d/h |
| Utils.IntervalExamples | lib/greenhub.js:316-318 | `12h` and `10d` are accepted; `0h`, `h` and `12hh` are rejected |
| Utils.ValidateDateRange | lib/utils.js:18-40 | not two parts: false. One side empty: the other side's validity. Two non-empty `same` dates: false. Otherwise valid, valid and strictly before. A true result means every given endpoint is valid and two given endpoints are ordered |
| Utils.DateRangeMeetsRules | lib/greenhub.js:362-382 | unless both sides are empty, `validateDateRange` of two parts is exactly the range rule: given endpoints valid, and if both given then distinct and first before second |
| Hub.ParseFilter | lib/greenhub.js:295-296 | the key never holds a colon; the value is `undefined` or a colon-free string |
| Hub.FilterWithoutColon | lib/greenhub.js:295-296 | a clause without a colon is a key with value `undefined` |
| Hub.FilterRoundTrip | lib/greenhub.js:295-296 | `key:value` with colon-free parts parses back into that key and value |
| Hub.FilterDropsAfterSecondColon | lib/greenhub.js:295-296 | anything after a second colon is dropped |
| Hub.AssignAll | lib/greenhub.js:294-297 | assigning clauses in order: the keys are exactly the clauses' keys other than `__proto__`, and each such key holds the value of its last clause |
| Hub.MakeFilters | lib/greenhub.js:291-300 | the filter object's keys are exactly the parsed keys other than `__proto__`, and for a repeated key the later clause's value wins |
| Hub.ProtoClauseIgnored | lib/greenhub.js:296 | a `__proto__:x` clause adds no key, alone or next to an ordinary clause |
| Hub.RangeBranch | lib/greenhub.js:324-327 | the range test (`validateDateRange` and not `..`) holds exactly when the range has one `..` and its endpoints meet the range rule; the endpoints are the text before the first `..` and after it |
| Hub.BuildSearchParams | lib/greenhub.js:302-340 | the result is the empty sentinel exactly when the option chosen by precedence fails its rule; otherwise it always holds `filters`, `page` and `per_page` with the given values |
| Hub.RangeParams | lib/greenhub.js:324-333 | an accepted range adds `date_begin`/`date_end` cut at the first `..`, plus paging, and keeps the other keys; a rejected one gives the sentinel |
| Hub.DateSelected | lib/greenhub.js:307-310 | a valid `date` yields exactly `filters`, `date`, `page`, `per_page` |
| Hub.LastSelected | lib/greenhub.js:315-319 | a well-formed `last` (with no `date`) yields exactly `filters`, `last`, `page`, `per_page` |
| Hub.RangeSelected | lib/greenhub.js:324-329 | an accepted `range` (with no `date`, `last`) yields exactly `filters`, `date_begin`, `date_end`, `page`, `per_page`, cut at the first `..` |
| Hub.NoTemporalOption | lib/greenhub.js:302-339 | with no temporal option the result holds only `filters`, `page`, `per_page` |
| Hub.DateShadowsLastAndRange | lib/greenhub.js:307-334 | once `date` is given, the values of `last` and `range` do not affect the result |
| Hub.LastShadowsRange | lib/greenhub.js:315-334 | without `date`, a given `last` makes `range` irrelevant |
| Hub.OpenRangeKeepsEmptyEndpoint | lib/greenhub.js:328-329 | `..end` sends `date_begin` as the empty string and `date_end` as `end` |
| Hub.BareDotsRejected | lib/greenhub.js:327 | the literal `..` yields the sentinel whatever the date library answers |
| Hub.ClosedRange | lib/greenhub.js:324-329 | `begin..end` with dot-free, ordered, distinct, valid dates sends exactly those two endpoints (a dot next to the `..` would move the cut, which is made at the first `..`) |
| Hub.ClosedRangeExample | lib/greenhub.js:324-329 | `2017-05-01..2017-05-31` becomes `date_begin` `2017-05-01` and `date_end` `2017-05-31` |
| Hub.FilterOnlyExample | lib/greenhub.js:302-339 | filter `os:6.0` with 5 items per page gives `{filters: {os: "6.0"}, page: 1, per_page: 5}` |
| Interval.FirstMatchText | lib/utils.js:14 | `param.match(pattern)` with the interval pattern: `null`, or a first match that is a string of the interval language |
| Hub.IsLoggedIn | lib/greenhub.js:346-352 | `isLoggedIn()` as `config.has('token')`, read as the token key being in the store; the warning it prints is left out |
| Js.SetProperty | lib/greenhub.js:296 | `o[key] = v` on a plain object: any key but `__proto__` is created or overwritten with `v`, `__proto__` leaves the own properties as they were, and every other key keeps its value |
| Hub.MakeUrl | lib/greenhub.js:278-280 | the URL is the stored server's text, then `/api/v1`, then the route |
| Hub.BundleParams | lib/greenhub.js:282-289 | adds `cli = true` and `api_token` (given token if non-empty, else the stored one); every other key is unchanged |
| Hub.BundleIdempotent | lib/greenhub.js:233 | bundling the same object again, as the pagination loop does, changes nothing |
| Hub.FirstRequest | lib/greenhub.js:32-37 | the guard that opens `count` (and, identically, `lumberjack` at lines 104-109): a request exists exactly when the user is logged in and the options are acceptable, and then it carries every built search parameter (filters, paging and the validated `date`, `last` or `date_begin`/`date_end`) with its value, plus `cli` and the stored token; a failed validation never produces a partial request |
| Hub.PlanCount | lib/greenhub.js:31-43 | `count` sends to `/count/<model>` exactly when logged in and the options pass, carrying every built search parameter with its value |
| Hub.PlanLumberjack | lib/greenhub.js:103-112 | `lumberjack` sends its first query to `/query/<model>` exactly when logged in and the options pass, starting at the requested page with the requested page size and carrying every built search parameter with its value |
| Pagination.Prompt | lib/greenhub.js:238-258 | no prompt when both links are null; otherwise `Next page` if there is a next link, then `Previous page` if there is a previous link, then `Exit` |
| Pagination.OfferedChoices | lib/greenhub.js:240-245 | `Previous page` is offered exactly when `prev_page_url` is not null, `Next page` exactly when `next_page_url` is not null, `Exit` always |
| Pagination.NextStep | lib/greenhub.js:261-269 | `exit` stops; `previous page`/`next page` move the page by one; all other parameters stay the same |
| Pagination.LowerCasedLabels | lib/greenhub.js:256-258 | the prompt's lower-casing turns the three labels into the answers the handler tests |
| Pagination.OfferedStep | lib/greenhub.js:250-269 | any offered choice stops exactly when it is `Exit`, and otherwise moves the page one step in a direction the reply's links allow |
| Pagination.Browse | lib/greenhub.js:229-270 | every query goes to `/query/<model>`; each one after the first is exactly what the user's answer to the previous reply's prompt makes of the previous query; the loop ends early only on no links or `Exit` |
| Pagination.AnsweredMoves | lib/greenhub.js:238-269 | a query that follows an answer differs from the one before only in the page, moved by one towards a link the reply offered |
| Legacy.MakeUrl | greenhub.js:195-197 | the URL is the test server, `/api/v`, the version's digits (reading back as the version), then the route |
| Legacy.DefaultVersionUrl | greenhub.js:195-197 | with the default version the URL is `http://192.168.1.105:8080/api/v1` followed by the route |
| Legacy.MakeParams | greenhub.js:199-204 | adds `cli = true` and `api_token` (given token if non-empty, else the stored one); other keys unchanged |
| Legacy.BundleParamsUnchanged | greenhub.js:199-204 | `makeParams` and the later `bundleParams` build the same object |
| Legacy.CountParams | greenhub.js:31-46 | a given `last` passes exactly when some piece of it is an interval, and then it is the only key; otherwise a given `range` is copied unchecked; with neither, the object stays empty |
| Legacy.PlanCount | greenhub.js:30-50 | the request is dropped exactly when `last` is given and matches nowhere; otherwise it goes to the test server's `/api/v1/count/<model>` with the kept `last` or `range`, `cli` and the stored token |
| Legacy.LegacyLastIsWeaker | greenhub.js:35-38 | every well-formed interval passes this `last` check |
| Legacy.LegacyAcceptsSurroundedInterval | greenhub.js:35-42 | `x12hy` passes this check but is rejected by lib/greenhub.js |

## Left out

- HTTP requests through axios are not modelled: the count request, `token`, `whoami`, `fetchServerUrl`, `saveApiToken` and the sending half of `makeQuery`. They are network I/O. The server's replies enter `Pagination.Browse` as a sequence, one reply per request.
- The inquirer prompts, console, chalk and log-symbols output, `displayUserInfo` and `prettyPrint` (JSON.stringify) are not modelled. They are terminal I/O and a foreign serializer.
- The Conf credential store is only an object read for `token` and `server`. `login`, `logout` and `remote` are not modelled: they write to that store, print, prompt through inquirer, and call `fetchServerUrl` and `saveApiToken`, which are left out above.
- moment's parsing and comparison are outside the model and appear as the three relations of `Utils.Moment`.
- index.js is not modelled. It only registers commands.
- test.js is not modelled. It spawns a process.
- `Utils.ValidateParam` takes the pattern as its first-match function. Only the interval pattern is modelled, because it is the only pattern the code passes.
- `Js.ToLower` maps only ASCII letters. The prompt only lower-cases the three fixed labels.
- `Cli.Options`: `page` and `numItems` are integers. The source copies whatever the front end gives, and a missing page would make the page step yield `NaN`.
- `Cli.Options`: an absent option is the empty string. The source tests options only for truthiness, and both are false.
- `Pagination.Browse`: the loop is bounded by the lists of replies and answers given to it. The source keeps asking as long as the user keeps choosing a page.
- `Pagination.Browse`: an answer is a position in the offered list, so only offered choices are chosen, as with inquirer's list prompt.
- `Js.Value`: numbers are unbounded integers. JavaScript numbers are IEEE doubles, and fractions, `NaN` and rounding are not modelled.
- `Js.NumberToString`: writes every integer in plain decimal. JavaScript's `String(n)` switches to exponent notation (`1e+21`) from 10^21 upwards.
- `Legacy.MakeUrl`: the version's digits read back as the version only below 10^21 in the source, because of that exponent notation.
- `Pagination.NextStep`: moves the page by exactly one. In the source the page is a double, and `params.page += 1` no longer changes it above 2^53.
- `Legacy.PlanCount`: always receives options. The source's `options` defaults to `null`, and a call without options throws at `options.last` before any request. index.js registers no `count` command, so no caller is shown.
- `Pagination.HasPrev`: a reply without a `prev_page_url` field counts as having a previous page, because `undefined !== null`. The same holds for `next_page_url`. This is modelled as written.

## Findings

| source | as written | input that shows it | evidently intended | confidence | as-written member | corrected member |
|---|---|---|---|---|---|---|
| greenhub.js:36 | `count` accepts `last` when the interval pattern matches anywhere in it | `x12hy` (also `12hours`) is sent as a `last` interval | the whole value must be an interval, as the later lib/greenhub.js checks with `validateParam` | medium, not executed | Legacy.LegacyAcceptsSurroundedInterval | Utils.IntervalParamIff |

=== FILE: cli.dfy ===
/** What the command handlers receive from the command-line front end and
    what they hand to the HTTP transport. */
module Cli {
  import opened Js

  /** The options of `count` and `lumberjack`. An option that was not given
      is the empty string: the handlers only test options for truthiness,
      and JavaScript treats a missing option and `''` alike. */
  datatype Options = Options(
    date: string,
    last: string,
    range: string,
    page: int,
    numItems: int)

  /** A GET request as handed to the transport: its URL and its query
      parameters. */
  datatype Request = Request(url: string, params: Object)
}

=== FILE: hub.dfy ===
/** The request-parameter pipeline of lib/greenhub.js: filter parsing,
    search-parameter building and validation, parameter bundling, URL
    building, and the guard that stops `count` and `lumberjack` before any
    request when validation failed. */
module Hub {
  import opened Js
  import Interval
  import Utils
  import opened Cli

  // ---------------------------------------------------------------------
  // Filters

  /** One `key:value` filter clause after `split(':')`: the key, and the
      value, which is `undefined` when the clause has no colon. */
  datatype Filter = Filter(key: string, value: Value)

  function ParseFilter(clause: string): (f: Filter)
    ensures ':' !in f.key
    ensures f.value == Undefined || (f.value.Str? && ':' !in f.value.s)
  {
    var parts := Split(clause, ":");
    ContainsChar(parts[0], ':');
    if |parts| >= 2 then
      ContainsChar(parts[1], ':');
      Filter(parts[0], Str(parts[1]))
    else
      Filter(parts[0], Undefined)
  }

  /** A clause without a colon is a key whose value is `undefined`. */
  lemma FilterWithoutColon(key: string)
    requires ':' !in key
    ensures ParseFilter(key) == Filter(key, Undefined)
  {
    ContainsChar(key, ':');
    SplitNone(key, ":");
  }

  /** `key:value` parses back into its key and value. */
  lemma FilterRoundTrip(key: string, value: string)
    requires ':' !in key && ':' !in value
    ensures ParseFilter(key + ":" + value) == Filter(key, Str(value))
  {
    CharFirstAt(key, ':', value);
    SplitAt(key + ":" + value, ":", key, value);
    ContainsChar(value, ':');
    SplitNone(value, ":");
  }

  /** Whatever follows a second colon is dropped. */
  lemma FilterDropsAfterSecondColon(key: string, value: string, rest: string)
    requires ':' !in key && ':' !in value
    ensures ParseFilter(key + ":" + value + ":" + rest) == Filter(key, Str(value))
  {
    var tail := value + ":" + rest;
    assert key + ":" + value + ":" + rest == key + ":" + tail;
    CharFirstAt(key, ':', tail);
    SplitAt(key + ":" + tail, ":", key, tail);
    CharFirstAt(value, ':', rest);
    SplitAt(tail, ":", value, rest);
  }

  /** The clauses split at their colons, in order. */
  function ParseAll(filters: seq<string>): (fs: seq<Filter>)
    ensures |fs| == |filters|
    ensures forall i :: 0 <= i < |filters| ==> fs[i] == ParseFilter(filters[i])
  {
    seq(|filters|, i requires 0 <= i < |filters| => ParseFilter(filters[i]))
  }

  /** No later filter in `fs` has the key of filter `j`. */
  predicate Overrides(fs: seq<Filter>, j: nat)
    requires j < |fs|
  {
    forall j' :: j < j' < |fs| ==> fs[j'].key != fs[j].key
  }

  /** `makeFilters(filters)`: each clause split at its colons, then assigned
      into one object from left to right, so that a later clause overwrites
      an earlier one with the same key. A `__proto__` clause creates no
      property. */
  function MakeFilters(filters: seq<string>): (r: Object)
    ensures var fs := ParseAll(filters);
            r.Keys == set j | 0 <= j < |fs| && fs[j].key != ProtoKey :: fs[j].key
    ensures var fs := ParseAll(filters);
            forall j :: 0 <= j < |fs| && fs[j].key != ProtoKey && Overrides(fs, j) ==>
              fs[j].key in r && r[fs[j].key] == fs[j].value
  {
    AssignAll(ParseAll(filters))
  }

  /** Assigning the filters one after the other into an empty object. */
  function AssignAll(fs: seq<Filter>): (r: Object)
    ensures r.Keys == set j | 0 <= j < |fs| && fs[j].key != ProtoKey :: fs[j].key
    ensures forall j :: 0 <= j < |fs| && fs[j].key != ProtoKey && Overrides(fs, j) ==>
              fs[j].key in r && r[fs[j].key] == fs[j].value
    decreases |fs|
  {
    if |fs| == 0 then map[]
    else
      var init := fs[..|fs| - 1];
      var last := fs[|fs| - 1];
      var prev := AssignAll(init);
      AssignStepKeys(fs, init, last, prev);
      AssignStepValues(fs, init, last, prev);
      SetProperty(prev, last.key, last.value)
  }

  /** Assigning one more filter adds its key to the keys, unless it is
      `__proto__`. */
  lemma AssignStepKeys(fs: seq<Filter>, init: seq<Filter>, last: Filter, prev: Object)
    requires fs == init + [last]
    requires prev.Keys == set j | 0 <= j < |init| && init[j].key != ProtoKey :: init[j].key
    ensures SetProperty(prev, last.key, last.value).Keys
            == set j | 0 <= j < |fs| && fs[j].key != ProtoKey :: fs[j].key
  {
    var r := SetProperty(prev, last.key, last.value);
    var all := set j | 0 <= j < |fs| && fs[j].key != ProtoKey :: fs[j].key;
    forall k | k in all
      ensures k in r.Keys
    {
      var j :| 0 <= j < |fs| && fs[j].key != ProtoKey && fs[j].key == k;
      if j < |init| {
        assert init[j] == fs[j];
      }
    }
    forall k | k in r.Keys
      ensures k in all
    {
      if k in prev {
        var j :| 0 <= j < |init| && init[j].key != ProtoKey && init[j].key == k;
        assert fs[j] == init[j];
      } else {
        assert fs[|fs| - 1] == last;
      }
    }
  }

  /** Assigning one more filter sets its key, unless it is `__proto__`, and
      leaves the others' last values in place. */
  lemma AssignStepValues(fs: seq<Filter>, init: seq<Filter>, last: Filter, prev: Object)
    requires fs == init + [last]
    requires prev.Keys == set j | 0 <= j < |init| && init[j].key != ProtoKey :: init[j].key
    requires forall j :: 0 <= j < |init| && init[j].key != ProtoKey && Overrides(init, j) ==>
               init[j].key in prev && prev[init[j].key] == init[j].value
    ensures forall j :: 0 <= j < |fs| && fs[j].key != ProtoKey && Overrides(fs, j) ==>
              var r := SetProperty(prev, last.key, last.value);
              fs[j].key in r && r[fs[j].key] == fs[j].value
  {
    forall j | 0 <= j < |fs| && fs[j].key != ProtoKey && Overrides(fs, j)
      ensures var r := SetProperty(prev, last.key, last.value);
              fs[j].key in r && r[fs[j].key] == fs[j].value
    {
      if j < |init| {
        assert fs[j] == init[j];
        assert fs[|fs| - 1] == last;
        assert Overrides(init, j) by {
          forall j' | j < j' < |init|
            ensures init[j'].key != init[j].key
          {
            assert fs[j'] == init[j'];
          }
        }
      }
    }
  }

  /** `makeFilters(['__proto__:x'])` is `{}`: the assignment reaches the
      inherited `__proto__` setter, which ignores a string. */
  lemma ProtoClauseIgnored()
    ensures MakeFilters(["__proto__:x"]) == map[]
    ensures MakeFilters(["__proto__:x", "os:6.0"]) == map["os" := Str("6.0")]
  {
    FilterRoundTrip("__proto__", "x");
    assert "__proto__:x" == "__proto__" + ":" + "x";
    FilterRoundTrip("os", "6.0");
    assert "os:6.0" == "os" + ":" + "6.0";
  }

  // ---------------------------------------------------------------------
  // Search parameters

  /** `raw` is `begin..end`, cut at the first `..`, with no further `..` in `end`. */
  ghost predicate CutAsRange(raw: string, begin: string, end: string) {
    && raw == begin + ".." + end
    && (forall j :: 0 <= j < |begin| ==> !OccursAt(raw, "..", j))
    && !Contains(end, "..")
  }

  /** A `range` option the pipeline accepts: exactly one `..`, and endpoints
      that meet the range rules. */
  predicate RangeAccepted(m: Utils.Moment, raw: string) {
    var parts := Split(raw, "..");
    |parts| == 2 && Utils.AcceptableRange(m, parts[0], parts[1])
  }

  /** Which options are acceptable, stated without the machinery of the
      builder: the first given of `date`, `last`, `range` is the one judged. */
  predicate Accepted(m: Utils.Moment, opts: Options) {
    if opts.date != "" then m.valid(opts.date)
    else if opts.last != "" then Interval.IsInterval(opts.last)
    else if opts.range != "" then RangeAccepted(m, opts.range)
    else true
  }

  lemma JoinTwo(parts: seq<string>, sep: string)
    requires |parts| == 2
    ensures Join(parts, sep) == parts[0] + sep + parts[1]
  {
    assert parts[1..] == [parts[1]];
  }

  /** The `range` branch of the builder decides exactly `RangeAccepted`, and
      an accepted range is cut at its first `..`. */
  lemma RangeBranch(m: Utils.Moment, raw: string)
    ensures var dates := Split(raw, "..");
            (Utils.ValidateDateRange(m, dates) && raw != "..") <==> RangeAccepted(m, raw)
    ensures var dates := Split(raw, "..");
            |dates| == 2 ==> CutAsRange(raw, dates[0], dates[1])
  {
    var dates := Split(raw, "..");
    if |dates| == 2 {
      JoinTwo(dates, "..");
      if dates[0] != "" || dates[1] != "" {
        Utils.DateRangeMeetsRules(m, dates[0], dates[1]);
      }
    }
  }

  /** `buildSearchParams(filters, options)`. The empty object is the failure
      sentinel. */
  function BuildSearchParams(m: Utils.Moment, filters: seq<string>, opts: Options): (r: Object)
    ensures r == map[] <==> !Accepted(m, opts)
    ensures r != map[] ==>
              && "filters" in r && r["filters"] == Obj(MakeFilters(filters))
              && "page" in r && r["page"] == Num(opts.page)
              && "per_page" in r && r["per_page"] == Num(opts.numItems)
  {
    var params := map["filters" := Obj(MakeFilters(filters))];
    if opts.date != "" then
      if m.valid(opts.date) then WithPaging(params["date" := Str(opts.date)], opts)
      else map[]
    else if opts.last != "" then
      Utils.IntervalParamIff(opts.last);
      if Utils.ValidateParam(opts.last, Interval.FirstMatchText) then
        WithPaging(params["last" := Str(opts.last)], opts)
      else map[]
    else if opts.range != "" then
      RangeParams(m, params, opts)
    else WithPaging(params, opts)
  }

  /** With `date` given and valid, the request carries that date and no
      other temporal key. */
  lemma DateSelected(m: Utils.Moment, filters: seq<string>, opts: Options)
    requires opts.date != "" && m.valid(opts.date)
    ensures var r := BuildSearchParams(m, filters, opts);
            r.Keys == {"filters", "date", "page", "per_page"} && r["date"] == Str(opts.date)
  {
  }

  /** With `last` selected and of the interval form, the request carries it
      and no other temporal key. */
  lemma LastSelected(m: Utils.Moment, filters: seq<string>, opts: Options)
    requires opts.date == "" && opts.last != "" && Interval.IsInterval(opts.last)
    ensures var r := BuildSearchParams(m, filters, opts);
            r.Keys == {"filters", "last", "page", "per_page"} && r["last"] == Str(opts.last)
  {
    Utils.IntervalParamIff(opts.last);
  }

  /** With `range` selected and accepted, the request carries the text before
      the first `..` as `date_begin` and the rest as `date_end`. */
  lemma RangeSelected(m: Utils.Moment, filters: seq<string>, opts: Options)
    requires opts.date == "" && opts.last == "" && opts.range != "" && RangeAccepted(m, opts.range)
    ensures var r := BuildSearchParams(m, filters, opts);
            && r.Keys == {"filters", "date_begin", "date_end", "page", "per_page"}
            && r["date_begin"].Str? && r["date_end"].Str?
            && CutAsRange(opts.range, r["date_begin"].s, r["date_end"].s)
  {
    var params := map["filters" := Obj(MakeFilters(filters))];
    assert BuildSearchParams(m, filters, opts) == RangeParams(m, params, opts);
  }

  /** With no temporal option, the request holds filters and paging only. */
  lemma NoTemporalOption(m: Utils.Moment, filters: seq<string>, opts: Options)
    requires opts.date == "" && opts.last == "" && opts.range == ""
    ensures BuildSearchParams(m, filters, opts).Keys == {"filters", "page", "per_page"}
  {
  }

  /** The `range` branch of `buildSearchParams`. */
  function RangeParams(m: Utils.Moment, params: Object, opts: Options): (r: Object)
    requires opts.range != ""
    ensures r == map[] <==> !RangeAccepted(m, opts.range)
    ensures r != map[] ==>
              && r.Keys == params.Keys + {"date_begin", "date_end", "page", "per_page"}
              && r["page"] == Num(opts.page) && r["per_page"] == Num(opts.numItems)
              && r["date_begin"].Str? && r["date_end"].Str?
              && CutAsRange(opts.range, r["date_begin"].s, r["date_end"].s)
              && forall k :: k in params && k !in {"date_begin", "date_end", "page", "per_page"} ==> r[k] == params[k]
  {
    var dates := Split(opts.range, "..");
    RangeBranch(m, opts.range);
    if Utils.ValidateDateRange(m, dates) && opts.range != ".." then
      WithPaging(params["date_begin" := Str(dates[0])]["date_end" := Str(dates[1])], opts)
    else map[]
  }

  function WithPaging(params: Object, opts: Options): (r: Object)
    ensures r.Keys == params.Keys + {"page", "per_page"}
    ensures r["page"] == Num(opts.page) && r["per_page"] == Num(opts.numItems)
    ensures forall k :: k in params && k != "page" && k != "per_page" ==> r[k] == params[k]
  {
    params["page" := Num(opts.page)]["per_page" := Num(opts.numItems)]
  }

  /** Once `date` is given, `last` and `range` are never looked at. */
  lemma DateShadowsLastAndRange(m: Utils.Moment, filters: seq<string>, opts: Options, last: string, range: string)
    requires opts.date != ""
    ensures BuildSearchParams(m, filters, opts) == BuildSearchParams(m, filters, opts.(last := last, range := range))
  {
  }

  /** Without `date`, a given `last` means `range` is never looked at. */
  lemma LastShadowsRange(m: Utils.Moment, filters: seq<string>, opts: Options, range: string)
    requires opts.date == "" && opts.last != ""
    ensures BuildSearchParams(m, filters, opts) == BuildSearchParams(m, filters, opts.(range := range))
  {
  }

  /** An open range keeps the missing endpoint as the empty string rather
      than leaving the key out. */
  lemma OpenRangeKeepsEmptyEndpoint(m: Utils.Moment, filters: seq<string>, opts: Options, end: string)
    requires opts.date == "" && opts.last == "" && opts.range == ".." + end
    requires end != "" && !Contains(end, "..") && m.valid(end)
    ensures var r := BuildSearchParams(m, filters, opts);
            r["date_begin"] == Str("") && r["date_end"] == Str(end)
  {
    assert opts.range == "" + ".." + end;
    SplitAt(opts.range, "..", "", end);
    SplitNone(end, "..");
  }

  /** The literal `..` is rejected, whatever the date library says. */
  lemma BareDotsRejected(m: Utils.Moment, filters: seq<string>, opts: Options)
    requires opts.date == "" && opts.last == "" && opts.range == ".."
    ensures BuildSearchParams(m, filters, opts) == map[]
  {
  }

  /** A range written `begin..end` with dot-free dates becomes those two
      endpoints when the range rules hold. */
  lemma ClosedRange(m: Utils.Moment, filters: seq<string>, opts: Options, begin: string, end: string)
    requires opts.date == "" && opts.last == "" && opts.range == begin + ".." + end
    requires '.' !in begin && '.' !in end && begin != "" && end != ""
    requires m.valid(begin) && m.valid(end) && !m.same(begin, end) && m.before(begin, end)
    ensures var r := BuildSearchParams(m, filters, opts);
            "date_begin" in r && "date_end" in r &&
            r["date_begin"] == Str(begin) && r["date_end"] == Str(end)
  {
    var raw := opts.range;
    forall j | 0 <= j < |begin|
      ensures !OccursAt(raw, "..", j)
    {
      assert raw[j] == begin[j];
      if j + 2 <= |raw| {
        assert raw[j..j + 2][0] == raw[j];
      }
    }
    SplitAt(raw, "..", begin, end);
    ContainsTwoDots(end);
    SplitNone(end, "..");
    assert Split(raw, "..") == [begin, end];
    RangeSelected(m, filters, opts);
  }

  lemma ClosedRangeExample(m: Utils.Moment)
    requires m.valid("2017-05-01") && m.valid("2017-05-31")
    requires m.before("2017-05-01", "2017-05-31") && !m.same("2017-05-01", "2017-05-31")
    ensures var r := BuildSearchParams(m, [], Options("", "", "2017-05-01..2017-05-31", 1, 10));
            "date_begin" in r && "date_end" in r &&
            r["date_begin"] == Str("2017-05-01") && r["date_end"] == Str("2017-05-31")
  {
    assert "2017-05-01..2017-05-31" == "2017-05-01" + ".." + "2017-05-31";
    ClosedRange(m, [], Options("", "", "2017-05-01..2017-05-31", 1, 10), "2017-05-01", "2017-05-31");
  }

  /** A string without a dot holds no `..`. */
  lemma ContainsTwoDots(s: string)
    requires '.' !in s
    ensures !Contains(s, "..")
  {
    forall i | 0 <= i && i + 2 <= |s|
      ensures !OccursAt(s, "..", i)
    {
      assert s[i..i + 2][0] == s[i];
    }
  }

  /** `lumberjack samples os:6.0 -n 5`. */
  lemma FilterOnlyExample(m: Utils.Moment)
    ensures BuildSearchParams(m, ["os:6.0"], Options("", "", "", 1, 5)) ==
            map["filters" := Obj(map["os" := Str("6.0")]), "page" := Num(1), "per_page" := Num(5)]
  {
    FilterRoundTrip("os", "6.0");
    assert "os:6.0" == "os" + ":" + "6.0";
    var f := MakeFilters(["os:6.0"]);
    assert ["os:6.0"][..0] == [];
    assert f == map["os" := Str("6.0")];
  }

  // ---------------------------------------------------------------------
  // Requests

  /** `makeUrl(method)`: the stored server URL (whatever it holds, as string
      concatenation renders it), the version segment, then the method. */
  function MakeUrl(store: Object, route: string): (url: string)
    ensures var server := ToText(Get(store, "server"));
            && |url| == |server| + |ApiPath| + |route|
            && url[..|server|] == server
            && url[|server|..|server| + |ApiPath|] == ApiPath
            && url[|url| - |route|..] == route
  {
    ToText(Get(store, "server")) + ApiPath + route
  }

  const ApiPath := "/api/v1"

  /** `bundleParams(params, token)`: marks the request as coming from the
      command line and attaches the API token, the given one unless it is
      empty, otherwise the stored one. Nothing else changes. */
  function BundleParams(params: Object, token: string, store: Object): (r: Object)
    ensures r.Keys == params.Keys + {"cli", "api_token"}
    ensures r["cli"] == Bool(true)
    ensures token != "" ==> r["api_token"] == Str(token)
    ensures token == "" ==> r["api_token"] == Get(store, "token")
    ensures forall k :: k in params && k != "cli" && k != "api_token" ==> r[k] == params[k]
  {
    var withCli := params["cli" := Bool(true)];
    var apiToken := if token == "" then Get(store, "token") else Str(token);
    withCli["api_token" := apiToken]
  }

  /** Bundling an already bundled object again changes nothing. */
  lemma BundleIdempotent(params: Object, store: Object)
    ensures BundleParams(BundleParams(params, "", store), "", store) == BundleParams(params, "", store)
  {
    RebundleNoop(BundleParams(params, "", store), store);
  }

  lemma RebundleNoop(params: Object, store: Object)
    requires "cli" in params && params["cli"] == Bool(true)
    requires "api_token" in params && params["api_token"] == Get(store, "token")
    ensures BundleParams(params, "", store) == params
  {
    var r := BundleParams(params, "", store);
    assert r.Keys == params.Keys;
    assert forall k :: k in r ==> r[k] == params[k];
  }

  /** `isLoggedIn()`. */
  predicate IsLoggedIn(store: Object) {
    "token" in store
  }

  /** The first request of `count` or `lumberjack` on `method`, or `None`
      when the handler returns early: not logged in, or the empty sentinel. */
  function FirstRequest(m: Utils.Moment, store: Object, route: string, filters: seq<string>, opts: Options)
    : (req: Option<Request>)
    ensures req.Some? <==> IsLoggedIn(store) && Accepted(m, opts)
    ensures req.Some? ==> req.value.url == MakeUrl(store, route)
    ensures req.Some? ==>
              var p := req.value.params;
              && {"filters", "page", "per_page", "cli", "api_token"} <= p.Keys
              && p["filters"] == Obj(MakeFilters(filters))
              && p["page"] == Num(opts.page) && p["per_page"] == Num(opts.numItems)
              && p["cli"] == Bool(true) && p["api_token"] == store["token"]
    ensures req.Some? ==>
              var built := BuildSearchParams(m, filters, opts);
              forall k :: k in built && k != "cli" && k != "api_token" ==>
                k in req.value.params && req.value.params[k] == built[k]
  {
    if !IsLoggedIn(store) then None
    else
      var params := BuildSearchParams(m, filters, opts);
      if |params| == 0 then None
      else Some(Request(MakeUrl(store, route), BundleParams(params, "", store)))
  }

  /** `count(model, filters, options)` up to the moment the request is sent. */
  function PlanCount(m: Utils.Moment, store: Object, model: string, filters: seq<string>, opts: Options)
    : (req: Option<Request>)
    ensures req.Some? <==> IsLoggedIn(store) && Accepted(m, opts)
    ensures req.Some? ==> req.value.url == MakeUrl(store, "/count/" + model)
    ensures req.Some? ==> {"filters", "page", "per_page", "cli", "api_token"} <= req.value.params.Keys
    ensures req.Some? ==>
              var built := BuildSearchParams(m, filters, opts);
              forall k :: k in built && k != "cli" && k != "api_token" ==>
                k in req.value.params && req.value.params[k] == built[k]
  {
    FirstRequest(m, store, "/count/" + model, filters, opts)
  }

  /** `lumberjack(model, filters, options)` up to the first request that
      `makeQuery` sends: the page it starts from and the page size are the
      ones the options name, which is where the query loop starts paging. */
  function PlanLumberjack(m: Utils.Moment, store: Object, model: string, filters: seq<string>, opts: Options)
    : (req: Option<Request>)
    ensures req.Some? <==> IsLoggedIn(store) && Accepted(m, opts)
    ensures req.Some? ==> req.value.url == MakeUrl(store, "/query/" + model)
    ensures req.Some? ==>
              && "page" in req.value.params && req.value.params["page"] == Num(opts.page)
              && "per_page" in req.value.params && req.value.params["per_page"] == Num(opts.numItems)
    ensures req.Some? ==>
              var built := BuildSearchParams(m, filters, opts);
              forall k :: k in built && k != "cli" && k != "api_token" ==>
                k in req.value.params && req.value.params[k] == built[k]
  {
    FirstRequest(m, store, "/query/" + model, filters, opts)
  }
}

=== FILE: interval.dfy ===
/** The relative-interval pattern `/[1-9]+[0-9]*(m|w|d|h)/g` used for the
    `last` option, and what `String.prototype.match` returns for it.

    The language of `[1-9]+[0-9]*(m|w|d|h)` is: a non-zero digit, then any
    digits, then one unit letter (months, weeks, days, hours). Because no
    unit letter is a digit, a match starting at a given position can only
    end right after the maximal run of digits there, so the regex engine's
    greedy backtracking has exactly one candidate per start position. */
module Interval {
  import opened Js

  predicate IsDigit(c: char) { '0' <= c <= '9' }

  predicate IsNonZeroDigit(c: char) { '1' <= c <= '9' }

  predicate IsUnit(c: char) { c == 'm' || c == 'w' || c == 'd' || c == 'h' }

  /** `t` belongs to the language of the pattern. */
  predicate IsInterval(t: string) {
    && |t| >= 2
    && IsNonZeroDigit(t[0])
    && IsUnit(t[|t| - 1])
    && forall k :: 1 <= k < |t| - 1 ==> IsDigit(t[k])
  }

  /** The end of the maximal run of digits starting at `i`. */
  function DigitRunEnd(s: string, i: nat): (e: nat)
    requires i <= |s|
    ensures i <= e <= |s|
    ensures forall k :: i <= k < e ==> IsDigit(s[k])
    ensures e < |s| ==> !IsDigit(s[e])
    decreases |s| - i
  {
    if i < |s| && IsDigit(s[i]) then DigitRunEnd(s, i + 1) else i
  }

  /** The end of the match of the pattern that starts at `i`, if there is one. */
  function MatchAt(s: string, i: nat): (r: Option<nat>)
    requires i <= |s|
    ensures r.Some? ==> i < r.value <= |s| && IsInterval(s[i..r.value])
  {
    if i < |s| && IsNonZeroDigit(s[i]) then
      var e := DigitRunEnd(s, i + 1);
      if e < |s| && IsUnit(s[e]) then Some(e + 1) else None
    else None
  }

  /** A match at `i` is found whenever the text from `i` to `e` is in the
      pattern's language, and it ends at `e`. */
  lemma MatchAtComplete(s: string, i: nat, e: nat)
    requires i < e <= |s| && IsInterval(s[i..e])
    ensures MatchAt(s, i) == Some(e)
  {
    var t := s[i..e];
    assert t[0] == s[i];
    assert t[|t| - 1] == s[e - 1];
    forall k | i + 1 <= k < e - 1
      ensures IsDigit(s[k])
    {
      assert t[k - i] == s[k];
    }
    assert DigitRunEnd(s, i + 1) == e - 1;
  }

  /** The leftmost match at or after `from`, as (start, end). */
  function FirstMatchFrom(s: string, from: nat): (r: Option<(nat, nat)>)
    requires from <= |s|
    ensures r.Some? ==> from <= r.value.0 < r.value.1 <= |s|
    ensures r.Some? ==> IsInterval(s[r.value.0..r.value.1])
    decreases |s| - from
  {
    if from == |s| then None
    else match MatchAt(s, from)
      case Some(e) => Some((from, e))
      case None => FirstMatchFrom(s, from + 1)
  }

  /** No match is skipped: every occurrence of the language at or after
      `from` is at or after the reported start. */
  lemma {:induction false} FirstMatchIsLeftmost(s: string, from: nat, j: nat, e: nat)
    requires from <= j < e <= |s| && IsInterval(s[j..e])
    ensures FirstMatchFrom(s, from).Some?
    ensures FirstMatchFrom(s, from).value.0 <= j
    decreases j - from
  {
    if from == j {
      MatchAtComplete(s, j, e);
    } else if MatchAt(s, from).None? {
      FirstMatchIsLeftmost(s, from + 1, j, e);
    }
  }

  /** `s.match(pattern)` with the global flag: `null`, or the array of all
      matches; only its first element is ever read, so that is the result. */
  function FirstMatchText(s: string): (r: Option<string>)
    ensures r.Some? ==> IsInterval(r.value)
  {
    match FirstMatchFrom(s, 0)
    case None => None
    case Some((a, b)) => Some(s[a..b])
  }

  /** `match` finds something exactly when some piece of the string is in
      the pattern's language. */
  lemma MatchFoundIff(s: string)
    ensures FirstMatchText(s).Some? <==>
            exists j, e :: 0 <= j < e <= |s| && IsInterval(s[j..e])
  {
    if r :| FirstMatchFrom(s, 0) == Some(r) {
      assert IsInterval(s[r.0..r.1]);
    }
    if j, e :| 0 <= j < e <= |s| && IsInterval(s[j..e]) {
      FirstMatchIsLeftmost(s, 0, j, e);
    }
  }

  /** The first match is the whole string exactly when the whole string is
      in the pattern's language. */
  lemma {:induction false} WholeMatchIff(s: string)
    ensures FirstMatchText(s) == Some(s) <==> IsInterval(s)
  {
    if IsInterval(s) {
      MatchAtComplete(s, 0, |s|);
      assert s[0..|s|] == s;
    }
  }
}

=== FILE: js.dfy ===
/** The slice of JavaScript semantics the GreenHub request pipeline relies on:
    plain objects used as string-keyed records, string concatenation of
    values, `String.prototype.split` with a literal separator, and the
    number-to-string conversion used when building URLs. */
module Js {

  datatype Option<+T> = None | Some(value: T)

  /** A JavaScript value as far as request parameters, stored settings and
      decoded server responses need one. */
  datatype Value =
    | Undefined
    | Null
    | Bool(b: bool)
    | Num(n: int)
    | Str(s: string)
    | Obj(fields: map<string, Value>)

  /** A plain object, as its own properties. */
  type Object = map<string, Value>

  /** The one key whose assignment on a plain object does not create an own
      property: it reaches the setter inherited from `Object.prototype`. */
  const ProtoKey := "__proto__"

  /** The property assignment `o[key] = v`. It creates or overwrites `key`,
      even when `v` is `undefined`. Assigning `__proto__` goes to the
      inherited setter: a primitive is ignored and an object only replaces
      the prototype, so the own properties stay as they were. */
  function SetProperty(o: Object, key: string, v: Value): (r: Object)
    ensures key != ProtoKey ==> r.Keys == o.Keys + {key} && r[key] == v
    ensures key == ProtoKey ==> r == o
    ensures forall k :: k in o && k != key ==> k in r && r[k] == o[k]
  {
    if key == ProtoKey then o else o[key := v]
  }

  /** Reading `o.key`: a missing property reads as `undefined`. */
  function Get(o: Object, key: string): (v: Value)
    ensures key !in o ==> v == Undefined
    ensures key in o ==> v == o[key]
  {
    if key in o then o[key] else Undefined
  }

  // ---------------------------------------------------------------------
  // Numbers as text

  function DigitChar(d: nat): (c: char)
    requires d < 10
    ensures '0' <= c <= '9' && c as int - '0' as int == d
  {
    "0123456789"[d]
  }

  predicate AllDigits(s: string) {
    forall i :: 0 <= i < |s| ==> '0' <= s[i] <= '9'
  }

  /** The decimal numeral of `n`, most significant digit first, no leading zeros. */
  function NatToDecimal(n: nat): (s: string)
    ensures |s| >= 1 && AllDigits(s)
    ensures |s| > 1 ==> s[0] != '0'
    decreases n
  {
    if n < 10 then [DigitChar(n)] else NatToDecimal(n / 10) + [DigitChar(n % 10)]
  }

  /** The number a string of decimal digits denotes (independent reading of a numeral). */
  function DecimalValue(s: string): (n: nat)
    requires AllDigits(s)
    decreases |s|
  {
    if |s| == 0 then 0
    else DecimalValue(s[..|s| - 1]) * 10 + (s[|s| - 1] as int - '0' as int)
  }

  lemma {:induction false} DecimalRoundTrip(n: nat)
    ensures DecimalValue(NatToDecimal(n)) == n
    decreases n
  {
    if n >= 10 {
      var p := NatToDecimal(n / 10);
      var s := p + [DigitChar(n % 10)];
      assert s[..|s| - 1] == p;
      DecimalRoundTrip(n / 10);
    }
  }

  /** `String(n)` for an integer-valued number. */
  function NumberToString(n: int): (s: string)
    ensures |s| >= 1
    ensures n >= 0 ==> AllDigits(s) && DecimalValue(s) == n
    ensures n < 0 ==> s[0] == '-' && AllDigits(s[1..]) && DecimalValue(s[1..]) == -n
  {
    if n < 0 then
      DecimalRoundTrip(-n);
      "-" + NatToDecimal(-n)
    else
      DecimalRoundTrip(n);
      NatToDecimal(n)
  }

  /** The text a value contributes to a string concatenation `"..." + v`. */
  function ToText(v: Value): string {
    match v
    case Undefined => "undefined"
    case Null => "null"
    case Bool(b) => if b then "true" else "false"
    case Num(n) => NumberToString(n)
    case Str(s) => s
    case Obj(_) => "[object Object]"
  }

  // ---------------------------------------------------------------------
  // Strings

  predicate OccursAt(s: string, sep: string, i: int) {
    0 <= i && i + |sep| <= |s| && s[i..i + |sep|] == sep
  }

  ghost predicate Contains(s: string, sep: string) {
    exists i :: OccursAt(s, sep, i)
  }

  lemma ContainsChar(s: string, c: char)
    ensures Contains(s, [c]) <==> c in s
  {
    if c in s {
      var i :| 0 <= i < |s| && s[i] == c;
      assert OccursAt(s, [c], i);
    }
    if Contains(s, [c]) {
      var i :| OccursAt(s, [c], i);
      assert s[i] == s[i..i + 1][0];
    }
  }

  /** The first position at or after `from` where `sep` occurs. */
  function IndexOf(s: string, sep: string, from: nat): (r: Option<nat>)
    requires from <= |s|
    ensures r.Some? ==> from <= r.value && OccursAt(s, sep, r.value)
    ensures r.Some? ==> forall j :: from <= j < r.value ==> !OccursAt(s, sep, j)
    ensures r.None? ==> forall j :: from <= j ==> !OccursAt(s, sep, j)
    decreases |s| - from
  {
    if OccursAt(s, sep, from) then Some(from)
    else if from == |s| then None
    else IndexOf(s, sep, from + 1)
  }

  lemma NoOccurrenceInPrefix(s: string, sep: string, n: nat)
    requires |sep| > 0 && n <= |s|
    requires forall j :: 0 <= j < n ==> !OccursAt(s, sep, j)
    ensures !Contains(s[..n], sep)
  {
    if Contains(s[..n], sep) {
      var j :| OccursAt(s[..n], sep, j);
      assert s[..n][j..j + |sep|] == s[j..j + |sep|];
      assert OccursAt(s, sep, j);
    }
  }

  /** `parts.join(sep)`. */
  function Join(parts: seq<string>, sep: string): string
    requires |parts| >= 1
  {
    if |parts| == 1 then parts[0] else parts[0] + sep + Join(parts[1..], sep)
  }

  /** `s.split(sep)` for a non-empty literal separator: the pieces between
      the occurrences of `sep`, found left to right without overlap. */
  function Split(s: string, sep: string): (parts: seq<string>)
    requires |sep| > 0
    ensures |parts| >= 1
    ensures Join(parts, sep) == s
    ensures forall k :: 0 <= k < |parts| ==> !Contains(parts[k], sep)
    ensures forall j :: 0 <= j < |parts[0]| ==> !OccursAt(s, sep, j)
    ensures |parts| >= 2 ==> OccursAt(s, sep, |parts[0]|)
    decreases |s|
  {
    match IndexOf(s, sep, 0)
    case None =>
      NoOccurrenceInPrefix(s, sep, |s|);
      assert s[..|s|] == s;
      [s]
    case Some(i) =>
      NoOccurrenceInPrefix(s, sep, i);
      var rest := Split(s[i + |sep|..], sep);
      var parts := [s[..i]] + rest;
      assert parts[1..] == rest;
      assert s == s[..i] + sep + s[i + |sep|..] by {
        assert s[i..i + |sep|] == sep;
        assert s == s[..i] + s[i..i + |sep|] + s[i + |sep|..];
      }
      parts
  }

  /** Splitting at a known first occurrence. */
  lemma SplitAt(s: string, sep: string, a: string, b: string)
    requires |sep| > 0
    requires s == a + sep + b
    requires forall j :: 0 <= j < |a| ==> !OccursAt(s, sep, j)
    ensures Split(s, sep) == [a] + Split(b, sep)
  {
    assert s[|a|..|a| + |sep|] == sep;
    assert OccursAt(s, sep, |a|);
    var r := IndexOf(s, sep, 0);
    assert r.Some?;
    assert r.value == |a|;
    assert s[..|a|] == a;
    assert s[|a| + |sep|..] == b;
  }

  lemma SplitNone(s: string, sep: string)
    requires |sep| > 0
    requires !Contains(s, sep)
    ensures Split(s, sep) == [s]
  {
  }

  /** For a one-character separator, no earlier occurrence means the prefix
      does not hold the character. */
  lemma CharFirstAt(a: string, c: char, b: string)
    requires c !in a
    ensures forall j :: 0 <= j < |a| ==> !OccursAt(a + [c] + b, [c], j)
  {
    var s := a + [c] + b;
    forall j | 0 <= j < |a|
      ensures !OccursAt(s, [c], j)
    {
      assert s[j..j + 1][0] == a[j];
    }
  }

  /** ASCII `toLowerCase`. */
  function ToLower(s: string): (r: string)
    ensures |r| == |s|
    ensures forall i :: 0 <= i < |s| ==> r[i] == LowerChar(s[i])
  {
    seq(|s|, i requires 0 <= i < |s| => LowerChar(s[i]))
  }

  function LowerChar(c: char): char {
    if 'A' <= c <= 'Z' then (c as int - 'A' as int + 'a' as int) as char else c
  }

  function Reverse<T>(s: seq<T>): (r: seq<T>)
    ensures |r| == |s|
    ensures forall i :: 0 <= i < |s| ==> r[i] == s[|s| - 1 - i]
  {
    if |s| == 0 then [] else Reverse(s[1..]) + [s[0]]
  }
}

=== FILE: legacy.dfy ===
/** The earlier command object of the top-level greenhub.js: a fixed test
    server, a versioned URL builder, the token-attaching `makeParams`, and a
    `count` whose only check is that the `last` option contains an
    interval somewhere. */
module Legacy {
  import opened Js
  import opened Cli
  import Interval
  import Hub
  import Utils

  const TestServer := "http://192.168.1.105:8080"

  const VersionPrefix := "/api/v"

  /** `makeUrl(method = '', version = 1)`. */
  function MakeUrl(route: string := "", version: int := 1): (url: string)
    ensures |url| == |TestServer| + |VersionPrefix| + |NumberToString(version)| + |route|
    ensures url[..|TestServer| + |VersionPrefix|] == TestServer + VersionPrefix
    ensures url[|url| - |route|..] == route
    ensures version >= 0 ==>
              var digits := url[|TestServer| + |VersionPrefix|..|url| - |route|];
              AllDigits(digits) && DecimalValue(digits) == version
  {
    var v := NumberToString(version);
    var url := TestServer + VersionPrefix + v + route;
    assert url[|TestServer| + |VersionPrefix|..|url| - |route|] == v;
    url
  }

  /** With the default version the URL is the test server's `/api/v1` path. */
  lemma DefaultVersionUrl(route: string)
    ensures MakeUrl(route) == TestServer + "/api/v1" + route
  {
    assert NatToDecimal(1) == "1";
  }

  /** `makeParams(params = {}, token = '')`: the command-line marker, and the
      given token unless it is empty, otherwise the stored one. */
  function MakeParams(store: Object, params: Object := map[], token: string := ""): (r: Object)
    ensures r.Keys == params.Keys + {"cli", "api_token"}
    ensures r["cli"] == Bool(true)
    ensures r["api_token"] == (if token == "" then Get(store, "token") else Str(token))
    ensures forall k :: k in params && k != "cli" && k != "api_token" ==> r[k] == params[k]
  {
    params["cli" := Bool(true)]["api_token" := if token == "" then Get(store, "token") else Str(token)]
  }

  /** For a string token, `bundleParams` of lib/greenhub.js builds the same
      object as `makeParams`. */
  lemma BundleParamsUnchanged(store: Object, params: Object, token: string)
    ensures MakeParams(store, params, token) == Hub.BundleParams(params, token, store)
  {
  }

  /** The parameter prelude of `count(model, options)`: `None` when it
      returns before any request. `date` is not read at all, `last` only has
      to contain an interval somewhere, and `range` is passed through as it
      is. */
  function CountParams(opts: Options): (r: Option<Object>)
    ensures opts.last != "" ==>
              (r.Some? <==> exists j, e :: 0 <= j < e <= |opts.last| && Interval.IsInterval(opts.last[j..e]))
    ensures opts.last != "" && r.Some? ==> r.value == map["last" := Str(opts.last)]
    ensures opts.last == "" && opts.range != "" ==> r == Some(map["range" := Str(opts.range)])
    ensures opts.last == "" && opts.range == "" ==> r == Some(map[])
  {
    if opts.last != "" then
      Interval.MatchFoundIff(opts.last);
      if Interval.FirstMatchText(opts.last).Some? then Some(map["last" := Str(opts.last)])
      else None
    else if opts.range != "" then Some(map["range" := Str(opts.range)])
    else Some(map[])
  }

  /** `count(model, options)` up to the moment the request is sent. There is
      no login check in this version. */
  function PlanCount(store: Object, model: string, opts: Options): (req: Option<Request>)
    ensures req.None? <==> opts.last != "" && Interval.FirstMatchText(opts.last).None?
    ensures req.Some? ==> req.value.url == TestServer + "/api/v1/count/" + model
    ensures req.Some? ==>
              && "cli" in req.value.params && req.value.params["cli"] == Bool(true)
              && "api_token" in req.value.params && req.value.params["api_token"] == Get(store, "token")
    ensures req.Some? && opts.last == "" && opts.range == "" ==> req.value.params.Keys == {"cli", "api_token"}
    ensures req.Some? ==>
              && CountParams(opts).Some?
              && forall k :: k in CountParams(opts).value ==>
                   k in req.value.params && req.value.params[k] == CountParams(opts).value[k]
  {
    DefaultVersionUrl("/count/" + model);
    assert TestServer + "/api/v1" + ("/count/" + model) == TestServer + "/api/v1/count/" + model;
    match CountParams(opts)
    case None => None
    case Some(params) => Some(Request(MakeUrl("/count/" + model), MakeParams(store, params)))
  }

  /** The check here is weaker than the whole-string check of lib/greenhub.js:
      every interval passes it, but so do strings that merely contain one. */
  lemma LegacyLastIsWeaker(s: string)
    requires Interval.IsInterval(s)
    ensures CountParams(Options("", s, "", 1, 10)).Some?
  {
    assert s[0..|s|] == s;
  }

  /** `x12hy` is accepted as a `last` value here and rejected by lib/greenhub.js. */
  lemma LegacyAcceptsSurroundedInterval(m: Utils.Moment)
    ensures CountParams(Options("", "x12hy", "", 1, 10)) == Some(map["last" := Str("x12hy")])
    ensures Hub.BuildSearchParams(m, [], Options("", "x12hy", "", 1, 10)) == map[]
  {
    var s := "x12hy";
    assert s[1..4] == "12h";
    assert Interval.IsInterval(s[1..4]);
    assert !Interval.IsInterval(s);
  }
}

=== FILE: pagination.dfy ===
/** The interactive half of `makeQuery` in lib/greenhub.js: after a page of
    results, offer the navigable choices, turn the answer into the next
    page number, and query again. The source loops by calling itself from
    the prompt's callback; here the loop is explicit, with the server's
    replies and the user's answers as parameters. */
module Pagination {
  import opened Js
  import opened Cli
  import Hub

  /** The response links, read with `!== null`: a missing field reads as
      `undefined`, which is not `null`, and so counts as navigable. */
  predicate HasPrev(data: Object) { Get(data, "prev_page_url") != Null }

  predicate HasNext(data: Object) { Get(data, "next_page_url") != Null }

  /** The choice list in the order `makeQuery` builds it. */
  function BuiltChoices(data: Object): seq<string> {
    ["Exit"]
    + (if HasPrev(data) then ["Previous page"] else [])
    + (if HasNext(data) then ["Next page"] else [])
  }

  /** The choices shown after a page, or `None` when there is only `Exit`
      and the loop ends without asking. The list is shown reversed. */
  function Prompt(data: Object): (offered: Option<seq<string>>)
    ensures offered.None? <==> !HasPrev(data) && !HasNext(data)
    ensures offered.Some? ==>
              offered.value == (if HasNext(data) then ["Next page"] else [])
                               + (if HasPrev(data) then ["Previous page"] else [])
                               + ["Exit"]
  {
    var choices := BuiltChoices(data);
    if |choices| == 1 then None else Some(Reverse(choices))
  }

  /** A choice is offered exactly when the matching link is there, and
      `Exit` always is. */
  lemma OfferedChoices(data: Object)
    requires HasPrev(data) || HasNext(data)
    ensures Prompt(data).Some?
    ensures "Exit" in Prompt(data).value
    ensures "Previous page" in Prompt(data).value <==> HasPrev(data)
    ensures "Next page" in Prompt(data).value <==> HasNext(data)
  {
  }

  predicate HasPage(params: Object) {
    "page" in params && params["page"].Num?
  }

  function Page(params: Object): int
    requires HasPage(params)
  {
    params["page"].n
  }

  /** What follows an answer: the loop stops, or queries with these parameters. */
  datatype Step = Stop | Query(params: Object)

  /** The answer handler of `makeQuery`. The prompt lower-cases the chosen
      label; `previous page` and `next page` move the page by one and leave
      every other parameter as it was. */
  function NextStep(params: Object, answer: string): (step: Step)
    requires HasPage(params)
    ensures step.Stop? <==> ToLower(answer) == "exit"
    ensures step.Query? ==> HasPage(step.params) && step.params.Keys == params.Keys
    ensures step.Query? ==> forall k :: k in params && k != "page" ==> step.params[k] == params[k]
    ensures ToLower(answer) == "previous page" ==> step.Query? && Page(step.params) == Page(params) - 1
    ensures ToLower(answer) == "next page" ==> step.Query? && Page(step.params) == Page(params) + 1
    ensures ToLower(answer) !in {"exit", "previous page", "next page"} ==> step == Query(params)
  {
    var action := ToLower(answer);
    if action == "exit" then Stop
    else if action == "previous page" then Query(params["page" := Num(Page(params) - 1)])
    else if action == "next page" then Query(params["page" := Num(Page(params) + 1)])
    else Query(params)
  }

  lemma LowerCasedLabels()
    ensures ToLower("Exit") == "exit"
    ensures ToLower("Previous page") == "previous page"
    ensures ToLower("Next page") == "next page"
  {
  }

  /** The page moves by one step in a direction the response offered, and
      nothing else about the parameters changes. */
  ghost predicate Moved(before: Object, after: Object, data: Object)
    requires HasPage(before)
  {
    || (HasNext(data) && after == before["page" := Num(Page(before) + 1)])
    || (HasPrev(data) && after == before["page" := Num(Page(before) - 1)])
  }

  /** Every offered choice does what its label says: `Exit` ends the loop,
      and the two page choices move the page within what the links allow. */
  lemma {:induction false} OfferedStep(data: Object, params: Object, choice: string)
    requires HasPage(params)
    requires Prompt(data).Some? && choice in Prompt(data).value
    ensures NextStep(params, choice).Stop? <==> choice == "Exit"
    ensures NextStep(params, choice).Query? ==> Moved(params, NextStep(params, choice).params, data)
  {
    LowerCasedLabels();
    OfferedChoices(data);
  }

  /** The answer at position `pick` of an offered list, wrapped round it. */
  function Chosen(offered: seq<string>, pick: nat): string
    requires |offered| > 0
  {
    offered[pick % |offered|]
  }

  /** The query `after` is what the answer at position `pick`, given to the
      prompt shown for `reply`, makes of `before`. */
  predicate Answered(before: Object, reply: Object, pick: nat, after: Object)
    requires HasPage(before)
  {
    var offered := Prompt(reply);
    offered.Some? && NextStep(before, Chosen(offered.value, pick)) == Query(after)
  }

  /** A query that follows an answer moves the page by one step in a
      direction the reply offered, and changes nothing else. */
  lemma AnsweredMoves(before: Object, reply: Object, pick: nat, after: Object)
    requires HasPage(before) && Answered(before, reply, pick, after)
    ensures Moved(before, after, reply)
  {
    var offered := Prompt(reply).value;
    OfferedStep(reply, before, Chosen(offered, pick));
  }

  /** `lumberjack`'s query loop from its first request: request, show the
      reply, prompt, step. `replies[k]` is the server's reply to the k-th
      request and `picks[k]` the position of the user's answer in the k-th
      prompt (wrapped round the list). The loop ends on `Exit`, when a reply
      offers no link, or when the replies or the answers run out. */
  method Browse(store: Object, model: string, start: Object, replies: seq<Object>, picks: seq<nat>)
    returns (sent: seq<Request>)
    requires HasPage(start)
    ensures 1 <= |sent| <= |picks| + 1 && |sent| <= |replies| + 1
    ensures sent[0] == Request(Hub.MakeUrl(store, "/query/" + model), Hub.BundleParams(start, "", store))
    ensures forall k :: 0 <= k < |sent| ==>
              sent[k].url == Hub.MakeUrl(store, "/query/" + model) && HasPage(sent[k].params)
    ensures forall k :: 0 < k < |sent| ==>
              Answered(sent[k - 1].params, replies[k - 1], picks[k - 1], sent[k].params)
    ensures |sent| <= |picks| && |sent| <= |replies| ==>
              var data := replies[|sent| - 1];
              Prompt(data).None? || Chosen(Prompt(data).value, picks[|sent| - 1]) == "Exit"
  {
    var url := Hub.MakeUrl(store, "/query/" + model);
    var params := Hub.BundleParams(start, "", store);
    sent := [Request(url, params)];
    var i := 0;
    while i < |picks| && i < |replies|
      invariant 0 <= i <= |picks| && i <= |replies|
      invariant |sent| == i + 1
      invariant sent[0] == Request(url, Hub.BundleParams(start, "", store))
      invariant params == sent[i].params && HasPage(params)
      invariant "cli" in params && params["cli"] == Bool(true)
      invariant "api_token" in params && params["api_token"] == Get(store, "token")
      invariant forall k :: 0 <= k < |sent| ==> sent[k].url == url && HasPage(sent[k].params)
      invariant forall k :: 0 < k < |sent| ==>
                  Answered(sent[k - 1].params, replies[k - 1], picks[k - 1], sent[k].params)
    {
      var data := replies[i];
      var offered := Prompt(data);
      if offered.None? {
        return;
      }
      var choice := Chosen(offered.value, picks[i]);
      OfferedStep(data, params, choice);
      var step := NextStep(params, choice);
      if step.Stop? {
        return;
      }
      // The parameter object is the same one every time, so bundling it
      // again finds `cli` and `api_token` already in place.
      Hub.RebundleNoop(step.params, store);
      params := Hub.BundleParams(step.params, "", store);
      sent := sent + [Request(url, params)];
      i := i + 1;
    }
  }
}

=== FILE: utils.dfy ===
/** The validation helpers of lib/utils.js. lib/greenhub.js carries copies of
    `validateParam` and `validateDateRange` with the same text; both files
    use the definitions here. */
module Utils {
  import opened Js
  import Interval

  /** What the pipeline asks of the moment date library, which is outside the
      model: whether a string parses as a date (`moment(a).isValid()`, which is
      all `isDateValid` does), whether
      two strings denote the same instant (`moment(a).isSame(b)`) and whether
      the first is strictly earlier (`moment(a).isBefore(b)`). Every result
      below holds whatever these three relations are. */
  datatype Moment = Moment(
    valid: string -> bool,
    same: (string, string) -> bool,
    before: (string, string) -> bool)


  /** A compiled regular expression, seen through `param.match(pattern)`:
      `None` for `null`, otherwise the first element of the match array. */
  type Pattern = string -> Option<string>

  /** `validateParam(param, pattern)`: a match exists and the first match is
      the whole parameter. */
  function ValidateParam(param: string, pattern: Pattern): (ok: bool)
    ensures ok <==> pattern(param) == Some(param)
  {
    var matches := pattern(param);
    matches.Some? && matches.value == param
  }

  /** With the interval pattern, `validateParam` accepts exactly the strings of
      the pattern's language: the match must cover the whole string, not just
      some piece of it. */
  lemma IntervalParamIff(param: string)
    ensures ValidateParam(param, Interval.FirstMatchText) <==> Interval.IsInterval(param)
  {
    Interval.WholeMatchIff(param);
  }

  lemma IntervalExamples()
    ensures ValidateParam("12h", Interval.FirstMatchText)
    ensures ValidateParam("10d", Interval.FirstMatchText)
    ensures !ValidateParam("0h", Interval.FirstMatchText)
    ensures !ValidateParam("h", Interval.FirstMatchText)
    ensures !ValidateParam("12hh", Interval.FirstMatchText)
  {
    IntervalParamIff("12h");
    IntervalParamIff("10d");
    IntervalParamIff("0h");
    IntervalParamIff("h");
    IntervalParamIff("12hh");
  }

  /** The range rules stated on their own: at least one endpoint is given,
      every given endpoint is a valid date, and when both are given they are
      different instants with the first strictly earlier. */
  predicate AcceptableRange(m: Moment, begin: string, end: string) {
    && (begin != "" || end != "")
    && (begin == "" || m.valid(begin))
    && (end == "" || m.valid(end))
    && (begin != "" && end != "" ==> !m.same(begin, end) && m.before(begin, end))
  }

  /** `validateDateRange(range)` for the pieces of a `begin..end` string. */
  function ValidateDateRange(m: Moment, range: seq<string>): (ok: bool)
    ensures |range| != 2 ==> !ok
    ensures ok ==> (range[0] == "" || m.valid(range[0])) && (range[1] == "" || m.valid(range[1]))
    ensures ok && range[0] != "" && range[1] != "" ==>
              !m.same(range[0], range[1]) && m.before(range[0], range[1])
    ensures |range| == 2 && range[0] == "" ==> (ok <==> m.valid(range[1]))
    ensures |range| == 2 && range[0] != "" && range[1] == "" ==> (ok <==> m.valid(range[0]))
    ensures |range| == 2 && range[0] != "" && range[1] != "" && !m.same(range[0], range[1]) ==>
              (ok <==> m.valid(range[0]) && m.valid(range[1]) && m.before(range[0], range[1]))
  {
    if |range| != 2 then false
    else if range[0] == "" then m.valid(range[1])
    else if range[1] == "" then m.valid(range[0])
    else if m.same(range[0], range[1]) then false
    else m.valid(range[0]) && m.valid(range[1]) && m.before(range[0], range[1])
  }

  /** Apart from the case where both endpoints are empty (which the function
      judges by the validity of the empty string, and its callers reject on
      their own), `validateDateRange` decides exactly the range rules. */
  lemma DateRangeMeetsRules(m: Moment, begin: string, end: string)
    requires begin != "" || end != ""
    ensures ValidateDateRange(m, [begin, end]) <==> AcceptableRange(m, begin, end)
  {
  }
}
